=== FILE: README.md ===
# Customer search page — Dafny model

The page `app/page.tsx` loads a JSON array of customer records once, keeps a
free-text query typed by the user, and shows the records whose name, id or
NIC (national identity code) contains the query, ignoring case. An empty
query shows nothing. The table shows at most 50 rows, while the status line
reports the full number of matches.

This project models that logic as pure functions over immutable data:

- `text.dfy` (module `Text`): ASCII lower-casing (`toLowerCase`), substring
  search (`includes`) and the decimal text of integer ids (`String(n)`).
- `customer.dfy` (module `Customers`): a record whose four fields are each
  `undefined`, `null`, a string or a number, with JavaScript truthiness and
  `String(...)` of a field.
- `search.dfy` (module `Search`): the filter predicate `Matches` and
  `Filter` (`data.filter(...)`), with lemmas on membership, order,
  multiplicity, case-insensitivity and narrowing as the query grows.
- `view.dfy` (module `View`): `slice(0, 50)`, the rendered page (`Render`),
  the view states (`StateOf`), and the lemma tying the two together.
- `session.dfy` (module `Lifecycle`): mount, the single load settling with
  records or with a failure, and keystrokes, as events on the component state.
- `scenarios.dfy` (module `Scenarios`): concrete datasets and queries.

Three points of behaviour the model makes explicit:

- The guard `customer.id && ...` treats the number 0 as absent. A customer
  whose numeric id is 0 is therefore never found by its id, not even by the
  query "0" (`Search.GuardExcludesFalsy`). The model keeps this behaviour.
- Once loading has finished, with an empty query the code still renders
  the table header with zero rows, and the prompt below it
  (app/page.tsx:67-110). `Render` has `rows == Some([])` there. While
  loading, only the loading message shows, whatever the query.
- The interface (app/page.tsx:5-10) declares every field, but nothing
  validates the JSON. Each field may therefore be missing, `null` or a
  number. The filter guards each of the three searched fields before
  converting it (app/page.tsx:39-41). The table cells read all four fields
  unguarded (app/page.tsx:84-93).

## Model

| member | source | states |
|---|---|---|
| Text.Lower | app/page.tsx:36 | lower-casing keeps the length, leaves non-letters alone and maps each upper-case ASCII letter to its lower-case form; no upper-case letter remains |
| Text.LowerIdempotent | app/page.tsx:36 | lower-casing an already lower-cased query changes nothing |
| Text.Contains | app/page.tsx:39-41 | `includes` is true exactly when the needle occurs at some position of the text |
| Text.ContainsNarrowing | app/page.tsx:39-41 | a text containing a longer query also contains any string contained in that query |
| Text.NatText | app/page.tsx:40 | the digits of a non-negative id are non-empty, all decimal digits, with no leading zero |
| Text.IntText | app/page.tsx:40 | `String(id)` of a numeric id is non-empty, has no upper-case letter and starts with '-' exactly for negative ids, and the digits after the sign read back to the id's magnitude |
| Text.NatTextRoundTrip | app/page.tsx:40 | reading back the decimal digits of a non-negative id gives the id |
| Customers.Truthy | app/page.tsx:38-41 | a field passes the `&&` guard exactly when it is a non-empty string or a non-zero number |
| Customers.FieldText | app/page.tsx:39-41 | `String(field)` is the string itself, or lower-case text for undefined, null and numbers, and never empty for a truthy field |
| Search.FieldMatches | app/page.tsx:39-41 | one field test holds exactly when the field is truthy and its lower-cased text has the lowered query at some position; for a non-empty string it is the substring test on its lower-cased form |
| Search.Matches | app/page.tsx:33-44 | the empty query matches no record; a matching record has a truthy name, id or NIC |
| Search.MatchesMeaning | app/page.tsx:36-43 | for a non-empty query, a record matches exactly when its name, id or NIC is truthy and its lower-cased text has the lower-cased query at some position |
| Search.AddressIgnored | app/page.tsx:39-43 | changing the address never changes whether a record matches |
| Search.FalsyFieldNeverMatches | app/page.tsx:38-41 | a missing, null, empty or zero field matches no query |
| Search.GuardExcludesFalsy | app/page.tsx:38-41 | `String(undefined)` contains "undef" and `String(0)` contains "0", yet neither field matches; a record with id 0 and no other truthy field matches no query |
| Search.MatchesCaseInsensitive | app/page.tsx:36 | two queries with the same lower-cased form match the same records |
| Search.Filter | app/page.tsx:33-44 | the result is no longer than the dataset, and a record is in it exactly when it is in the dataset and matches |
| Search.FilterEmptyQuery | app/page.tsx:34 | the empty query yields no records for every dataset |
| Search.FilterMultiplicity | app/page.tsx:33 | each matching record occurs in the result as often as in the dataset; a non-matching one does not occur |
| Search.FilterPositions | app/page.tsx:33 | the result is the dataset at strictly increasing positions, and those positions are exactly the matching ones |
| Search.FilterSameMatches | app/page.tsx:33-44 | two queries that match the same records of the dataset give the same result |
| Search.FilterCaseInsensitive | app/page.tsx:36 | filtering with a query and with its lower-cased form gives the same result |
| Search.MatchesPrefix | app/page.tsx:36-43 | under the ASCII lowering of this model, a record matching a query also matches every non-empty prefix of it |
| Search.FilterRefines | app/page.tsx:33 | filtering the result again with a query that implies the first gives the direct result |
| Search.FilterNarrowsAsQueryGrows | app/page.tsx:33-44 | under the ASCII lowering of this model, the result for a query is the result for any non-empty prefix of it, filtered again |
| Search.FilterAllMatch | app/page.tsx:33 | when every record matches, the whole dataset is kept in order |
| View.SliceBound | app/page.tsx:81 | a non-negative `slice` bound is clamped to the length; every bound lies within the array |
| View.Slice | app/page.tsx:81 | `slice` returns the elements from the clamped start bound up to the clamped end bound, in order, and nothing when the end bound is not after the start bound |
| View.Displayed | app/page.tsx:81 | the table rows are the first min(number of results, 50) results, in order; all results when there are at most 50 |
| View.Render | app/page.tsx:62-112 | while loading only the loading message shows; when loaded, the table shows; the prompt shows exactly for an empty query, below a table with zero rows; the count line shows exactly for a non-empty query and gives the untruncated number of results; the table rows are exactly `View.Displayed` of the filter result, so the first min(count, 50) results in order, each a matching record of the dataset; the no-results message shows exactly when the count is 0 and quotes the query |
| View.StateOf | app/page.tsx:62-110 | the view is loading exactly while the flag is set and prompting exactly for an empty loaded query; "no results" means no record matches; "results" carries the untruncated count and, as rows, exactly the first min(count, 50) filter results in order |
| View.PageOf | app/page.tsx:62-110 | each state has its own drawing: the loading message and no table exactly for Loading, the prompt exactly for Prompt, the no-results message exactly for NoResults, a count line for NoResults and Results, and for Results its count and rows |
| View.RenderFollowsState | app/page.tsx:62-110 | the rendered page is always exactly the drawing of the view state; no mixture of states is shown |
| View.NoMatchShowsMessage | app/page.tsx:100-104 | a non-empty query that matches nothing shows "Found 0 results", an empty table and the message quoting the query |
| View.AllMatchCountVersusRows | app/page.tsx:62-81 | when every record matches, the count is the dataset's size while the table holds its first min(size, 50) records |
| Lifecycle.Step | app/page.tsx:14-30 | settling clears the loading flag and stores the records only on success; typing replaces the query and keeps the records and the flag |
| Lifecycle.Run | app/page.tsx:14-30 | after a sequence of updates the page is loading exactly when it was loading and no update settled the fetch; keystrokes alone keep the records, and settle events alone keep the query |
| Lifecycle.Replay | app/page.tsx:14-30 | after mounting and any history with at most one settle event: loading exactly until the load settles, no records before that, the loaded records after a success and none after a failure, and the query is the last typed text |
| Lifecycle.FailedLoadShowsNoRows | app/page.tsx:26-29 | after a failed load, every query shows either the prompt or the no-results message |
| Scenarios.FindsByName | app/page.tsx:33-44 | "john" finds the record named "John Doe" and the view shows one result |
| Scenarios.FindsByNameInCapitals | app/page.tsx:36 | "JOHN" finds the same record |
| Scenarios.FindsByNumericId | app/page.tsx:40 | the numeric id 1 is found by the query "1" |
| Scenarios.EmptyQueryShowsPrompt | app/page.tsx:106-110 | an empty query shows an empty table with the prompt below it |
| Scenarios.NothingFound | app/page.tsx:100-104 | "zz" against two copies of John Doe shows a count of 0 and the no-results message |
| Scenarios.SixtyMatches | app/page.tsx:62-81 | sixty matching records give a count of 60 and a table of 50 rows |

## Left out

- Text.Lower: lowers only the ASCII letters A-Z. JavaScript's `toLowerCase` follows full Unicode case mapping, which is a foreign library.
- Text.IntText: renders an integer as its exact decimal digits. That matches JavaScript only for ids of magnitude at most 2^53. JSON numbers are doubles, so a larger integer is rounded when the document is parsed. `String(n)` then prints the shortest digits that read back to the same double, padded with zeros. For example, `String(2**60)` is "1152921504606847000", while `IntText` gives "1152921504606846976". So the model finds that record by the query "976" and the page does not, and the page finds it by "7000" and the model does not. From 1e21 JavaScript also switches to exponent notation. Fractional numbers and NaN are not modelled.
- Customers.Truthy: booleans, arrays and objects as field values are not modelled. The declared record type does not allow them.
- The fetch of `/customers.json`, JSON decoding and the `console.error` log (lines 19-29) are not modelled. The outcome of the load is an input event (`Lifecycle.LoadOutcome`).
- React's `useState`, `useEffect` and the re-render cycle are not modelled. The component state is the `Lifecycle.Session` value, and each render is the pure `View.Render` of it.
- The fetch finishing after the component has unmounted is not modelled.
- The JSX markup, Tailwind classes, the table header and the per-cell rendering (lines 46-115) are not modelled. Only which parts appear, and which rows and texts they carry, is modelled.
- View.Slice: only integer arguments are modelled. JavaScript also converts non-integer and missing arguments, which the page never passes.
- Search.MatchesPrefix: holds only because `Text.Lower` lowers one character at a time. JavaScript's `toLowerCase` applies Unicode's context-dependent final-sigma rule, so "ΟΣΑ" lowers to "οσα" while its prefix "ΟΣ" lowers to "ος". On the page, a record named "ΟΣΑ" is found by "ΟΣΑ" but not by "ΟΣ".
- Search.FilterNarrowsAsQueryGrows: relies on `Search.MatchesPrefix`, so it is stated for the ASCII lowering only, for the same final-sigma reason.
- Text.LowerSlice: lowering commutes with slicing only for character-by-character lowering; it fails for the final-sigma rule.
- Lifecycle.LoadOutcome: a successful load is assumed to yield an array of objects. A document that is not an array makes the first render throw at `data.filter` (app/page.tsx:33). A `null` element makes the render throw at `customer.name` once the query is non-empty (app/page.tsx:39-41).

=== FILE: customer.dfy ===
/**
  One customer record as it arrives from the JSON document. The declared
  shape is `{ id: string | number, name, nic, address: string }`, but nothing
  validates the document, so every field may also be missing (`undefined`),
  `null`, a string or a number.
 */
module Customers {
  import opened Text

  /**
    A JSON field value as the search reads it. Numbers are integers, read
    exactly. That agrees with JavaScript's doubles for magnitudes up to 2^53.
   */
  datatype Field = Undefined | Null | Str(s: string) | Num(n: int)

  datatype Customer = Customer(id: Field, name: Field, nic: Field, address: Field)

  /**
    JavaScript truthiness of a field: `undefined`, `null`, the empty string
    and the number 0 are falsy; everything else is truthy.
   */
  function Truthy(f: Field): (b: bool)
    ensures b <==> (f.Str? && f.s != "") || (f.Num? && f.n != 0)
  {
    match f
    case Undefined => false
    case Null => false
    case Str(s) => |s| > 0
    case Num(n) => n != 0
  }

  /** `String(f)`: a string is itself; every other value is rendered in lower case. */
  function FieldText(f: Field): (r: string)
    ensures f.Str? ==> r == f.s
    ensures !f.Str? ==> IsLowered(r) && r != ""
    ensures Truthy(f) ==> r != ""
  {
    match f
    case Undefined => "undefined"
    case Null => "null"
    case Str(s) => s
    case Num(n) => IntText(n)
  }
}

=== FILE: scenarios.dfy ===
/**
  Concrete pages for small datasets: a name found regardless of case, the
  prompt for an empty query, a query nothing matches, and a query matching
  more records than the table shows.
 */
module Scenarios {
  import opened Text
  import opened Customers
  import opened Search
  import opened View

  const John: Customer := Customer(Num(1), Str("John Doe"), Str("N1"), Str("A1"))

  /** "john" finds John Doe through the name field. */
  lemma FindsByName()
    ensures Filter([John], "john") == [John]
    ensures StateOf(false, "john", [John]) == Results(1, [John])
  {
  }

  /** "JOHN" keeps the same records as "john". */
  lemma FindsByNameInCapitals()
    ensures Filter([John], "JOHN") == [John]
  {
    FindsByName();
    assert Lower("JOHN") == "john";
    FilterCaseInsensitive([John], "JOHN");
  }

  /** A numeric id is found through its decimal text. */
  lemma FindsByNumericId()
    ensures Matches(John, "1")
  {
  }

  /** With an empty query the table is empty and the prompt shows below it. */
  lemma EmptyQueryShowsPrompt(data: seq<Customer>)
    ensures StateOf(false, "", data) == Prompt
    ensures Render(false, "", data).rows == Some([])
  {
  }

  /** "zz" occurs in no field of John Doe, so the view says nothing was found. */
  lemma NothingFound()
    ensures Render(false, "zz", [John, John]) == Page(Some(0), false, Some([]), Some("zz"), false)
  {
    LowerOfLowered("zz");
    assert !Matches(John, "zz") by {
      MissingFirstChar(Lower("John Doe"), "zz");
      assert FieldText(John.id) == "1";
      MissingFirstChar(Lower("1"), "zz");
      MissingFirstChar(Lower("N1"), "zz");
    }
    NoMatchShowsMessage([John, John], "zz");
  }

  /** A query whose first character appears nowhere in `s` is not contained in it. */
  lemma MissingFirstChar(s: string, q: string)
    requires |q| > 0 && forall i :: 0 <= i < |s| ==> s[i] != q[0]
    ensures !Contains(s, q)
  {
  }

  /** Sixty matching records: the count line says 60 and the table holds 50 rows. */
  lemma SixtyMatches()
    ensures Render(false, "john", seq(60, _ => John)).foundCount == Some(60)
    ensures |Render(false, "john", seq(60, _ => John)).rows.value| == 50
  {
    FindsByName();
    AllMatchCountVersusRows(seq(60, _ => John), "john");
  }
}

=== FILE: search.dfy ===
/**
  The customer search of the page: which records a query keeps
  (`filteredData`), and what can be said about the kept sequence.
 */
module Search {
  import opened Text
  import opened Customers

  /**
    One field test: the field is truthy and its string form, lower-cased,
    contains `needle` (the already lower-cased query). The truthiness test
    comes first, as in `customer.name && String(customer.name)...`, so a
    missing field is never turned into text.
   */
  function FieldMatches(f: Field, needle: string): (r: bool)
    ensures r <==> Truthy(f) && exists i :: OccursAt(Lower(FieldText(f)), needle, i)
    ensures f.Str? && f.s != "" ==> (r <==> Contains(Lower(f.s), needle))
  {
    Truthy(f) && Contains(Lower(FieldText(f)), needle)
  }

  /**
    The predicate handed to `data.filter`: an empty query keeps nothing;
    otherwise the query is lower-cased once and looked up in the name, the
    id and the NIC, in that order. The address is never read.
   */
  function Matches(c: Customer, search: string): (r: bool)
    ensures search == "" ==> !r
    ensures r ==> Truthy(c.name) || Truthy(c.id) || Truthy(c.nic)
  {
    if search == "" then false
    else
      var needle := Lower(search);
      FieldMatches(c.name, needle) || FieldMatches(c.id, needle) || FieldMatches(c.nic, needle)
  }

  /** The field's lower-cased text has the lower-cased query at some position. */
  ghost predicate FoundIn(f: Field, search: string) {
    Truthy(f) && exists i :: OccursAt(Lower(FieldText(f)), Lower(search), i)
  }

  /**
    What a match means, stated by positions rather than by the scan: for a
    non-empty query, one of name, id, NIC is truthy and shows the query at
    some position once both sides are lower-cased.
   */
  lemma MatchesMeaning(c: Customer, search: string)
    requires search != ""
    ensures Matches(c, search) <==> FoundIn(c.name, search) || FoundIn(c.id, search) || FoundIn(c.nic, search)
  {
  }

  /** The address plays no part in matching. */
  lemma AddressIgnored(c: Customer, address: Field, search: string)
    ensures Matches(c.(address := address), search) == Matches(c, search)
  {
  }

  /** A falsy field never matches, whatever the query. */
  lemma FalsyFieldNeverMatches(f: Field, needle: string)
    requires !Truthy(f)
    ensures !FieldMatches(f, needle)
  {
  }

  /**
    The truthiness guard is what keeps falsy fields out: `String(undefined)`
    contains "undef" and `String(0)` contains "0", yet neither field matches,
    so a customer with id 0 and no name or NIC is found by no query.
   */
  lemma GuardExcludesFalsy()
    ensures Contains(Lower(FieldText(Undefined)), "undef") && !FieldMatches(Undefined, "undef")
    ensures Contains(Lower(FieldText(Num(0))), "0") && !FieldMatches(Num(0), "0")
    ensures forall q :: !Matches(Customer(Num(0), Undefined, Null, Str("")), q)
  {
  }

  /** Queries that lower-case alike keep the same records. */
  lemma MatchesCaseInsensitive(c: Customer, q: string, q': string)
    requires Lower(q) == Lower(q')
    ensures Matches(c, q) == Matches(c, q')
  {
  }

  /**
    `data.filter(Matches)`: walks the records in order and keeps each one
    that matches, once per occurrence.
   */
  function Filter(data: seq<Customer>, search: string): (r: seq<Customer>)
    ensures |r| <= |data|
    ensures forall c :: c in r <==> c in data && Matches(c, search)
    decreases |data|
  {
    if data == [] then []
    else
      var rest := Filter(data[1..], search);
      assert forall c :: c in data <==> c == data[0] || c in data[1..];
      (if Matches(data[0], search) then [data[0]] else []) + rest
  }

  /** An empty query yields no records, for every dataset. */
  lemma {:induction false} FilterEmptyQuery(data: seq<Customer>)
    ensures Filter(data, "") == []
    decreases |data|
  {
    if data != [] {
      FilterEmptyQuery(data[1..]);
    }
  }

  /**
    A record is kept exactly as often as it occurs in the dataset when it
    matches, and not at all otherwise: duplicates are not collapsed.
   */
  lemma {:induction false} FilterMultiplicity(data: seq<Customer>, search: string, c: Customer)
    ensures multiset(Filter(data, search))[c] == if Matches(c, search) then multiset(data)[c] else 0
    decreases |data|
  {
    if data != [] {
      FilterMultiplicity(data[1..], search, c);
      assert data == [data[0]] + data[1..];
    }
  }

  /**
    `idx` places `sub` inside `full` in order: `sub[k]` is `full[idx[k]]`
    and the positions strictly increase.
   */
  predicate Embedding<T(==)>(idx: seq<nat>, sub: seq<T>, full: seq<T>) {
    && |idx| == |sub|
    && (forall k :: 0 <= k < |idx| ==> idx[k] < |full| && sub[k] == full[idx[k]])
    && (forall k, l :: 0 <= k < l < |idx| ==> idx[k] < idx[l])
  }

  /** Positions in `data[1..]`, each moved one place to the right. */
  function Shift(idx: seq<nat>): (r: seq<nat>)
    ensures |r| == |idx|
    ensures forall k :: 0 <= k < |idx| ==> r[k] == idx[k] + 1
  {
    seq(|idx|, k requires 0 <= k < |idx| => idx[k] + 1)
  }

  /** An embedding into the tail of `full` shifts to an embedding into `full` that avoids position 0. */
  lemma EmbeddingShift<T>(idx: seq<nat>, sub: seq<T>, full: seq<T>)
    requires |full| > 0 && Embedding(idx, sub, full[1..])
    ensures Embedding(Shift(idx), sub, full)
    ensures 0 !in Shift(idx)
    ensures forall i :: 1 <= i < |full| ==> (i in Shift(idx) <==> i - 1 in idx)
  {
  }

  /** Putting `full[0]` in front of an embedding that avoids position 0. */
  lemma EmbeddingCons<T>(idx: seq<nat>, sub: seq<T>, full: seq<T>)
    requires |full| > 0 && Embedding(idx, sub, full) && 0 !in idx
    ensures Embedding([0] + idx, [full[0]] + sub, full)
  {
  }

  /**
    The result is the subsequence of the dataset at exactly the matching
    positions, in dataset order.
   */
  lemma {:induction false} FilterPositions(data: seq<Customer>, search: string) returns (idx: seq<nat>)
    ensures Embedding(idx, Filter(data, search), data)
    ensures forall i :: 0 <= i < |data| ==> (i in idx <==> Matches(data[i], search))
    decreases |data|
  {
    if data == [] {
      idx := [];
    } else {
      var rest := FilterPositions(data[1..], search);
      var shifted := Shift(rest);
      EmbeddingShift(rest, Filter(data[1..], search), data);
      assert forall i :: 1 <= i < |data| ==> data[i] == data[1..][i - 1];
      if Matches(data[0], search) {
        EmbeddingCons(shifted, Filter(data[1..], search), data);
        idx := [0] + shifted;
      } else {
        idx := shifted;
      }
    }
  }

  /** Filtering depends on the query only through which records it matches. */
  lemma {:induction false} FilterSameMatches(data: seq<Customer>, q: string, q': string)
    requires forall c :: c in data ==> Matches(c, q) == Matches(c, q')
    ensures Filter(data, q) == Filter(data, q')
    decreases |data|
  {
    if data != [] {
      FilterSameMatches(data[1..], q, q');
    }
  }

  /** The query's case is irrelevant: `q` and its lower-cased form keep the same records. */
  lemma FilterCaseInsensitive(data: seq<Customer>, q: string)
    ensures Filter(data, q) == Filter(data, Lower(q))
  {
    LowerIdempotent(q);
    forall c | c in data
      ensures Matches(c, q) == Matches(c, Lower(q))
    {
      MatchesCaseInsensitive(c, q, Lower(q));
    }
    FilterSameMatches(data, q, Lower(q));
  }

  /** A record that matches a query matches each non-empty prefix of it. */
  lemma MatchesPrefix(c: Customer, q: string, k: nat)
    requires 0 < k <= |q|
    ensures Matches(c, q) ==> Matches(c, q[..k])
  {
    LowerSlice(q, 0, k);
    ContainsPrefix(Lower(q), k);
    if Matches(c, q) {
      ContainsNarrowing(Lower(FieldText(c.name)), Lower(q[..k]), Lower(q));
      ContainsNarrowing(Lower(FieldText(c.id)), Lower(q[..k]), Lower(q));
      ContainsNarrowing(Lower(FieldText(c.nic)), Lower(q[..k]), Lower(q));
    }
  }

  /** Refiltering a filtered sequence with a query that implies the first keeps the same records. */
  lemma {:induction false} FilterRefines(data: seq<Customer>, q: string, q': string)
    requires forall c :: c in data && Matches(c, q') ==> Matches(c, q)
    ensures Filter(Filter(data, q), q') == Filter(data, q')
    decreases |data|
  {
    if data != [] {
      FilterRefines(data[1..], q, q');
      var rest := Filter(data[1..], q);
      if Matches(data[0], q) {
        var kept := [data[0]] + rest;
        assert kept[0] == data[0] && kept[1..] == rest;
      } else {
        assert !Matches(data[0], q');
        assert Filter(data, q) == rest;
      }
    }
  }

  /**
    Typing further characters only narrows the result: the records kept for
    the longer query are those kept for a non-empty prefix of it, filtered again.
   */
  lemma FilterNarrowsAsQueryGrows(data: seq<Customer>, q: string, k: nat)
    requires 0 < k <= |q|
    ensures Filter(data, q) == Filter(Filter(data, q[..k]), q)
  {
    forall c | c in data && Matches(c, q)
      ensures Matches(c, q[..k])
    {
      MatchesPrefix(c, q, k);
    }
    FilterRefines(data, q[..k], q);
  }

  /** When every record matches, the whole dataset is kept. */
  lemma {:induction false} FilterAllMatch(data: seq<Customer>, search: string)
    requires forall c :: c in data ==> Matches(c, search)
    ensures Filter(data, search) == data
    decreases |data|
  {
    if data != [] {
      FilterAllMatch(data[1..], search);
    }
  }
}

=== FILE: session.dfy ===
/**
  The page's state over its lifetime: mounted empty and loading, the one
  fetch of the customer document settling (with the records, or failing and
  leaving the dataset empty), and the query replaced on every keystroke.
  The fetch itself, JSON decoding and the error log are outside the model:
  the fetch's outcome is an input event.
 */
module Lifecycle {
  import opened Customers
  import opened Search
  import opened View

  /** How the single fetch of the customer document ended. */
  datatype LoadOutcome = Succeeded(customers: seq<Customer>) | Failed

  datatype Event =
    | Settled(outcome: LoadOutcome)   // the fetch promise resolved or was rejected
    | Typed(text: string)             // the input's value after a keystroke

  /** The three pieces of component state. */
  datatype Session = Session(data: seq<Customer>, search: string, loading: bool)

  /** State on mount: no records, empty query, loading. */
  const Mounted: Session := Session([], "", true)

  /**
    One state update. Settling always clears the loading flag and stores the
    records only on success; typing replaces the query and nothing else.
   */
  function Step(s: Session, e: Event): (s': Session)
    ensures s'.loading <==> s.loading && e.Typed?
    ensures e.Typed? ==> s'.data == s.data && s'.search == e.text
    ensures e.Settled? ==> s'.search == s.search
    ensures e.Settled? ==> s'.data == (if e.outcome.Succeeded? then e.outcome.customers else s.data)
  {
    match e
    case Settled(Succeeded(cs)) => s.(data := cs, loading := false)
    case Settled(Failed) => s.(loading := false)
    case Typed(t) => s.(search := t)
  }

  /** The state after a sequence of events, applied in order. */
  function Run(s: Session, events: seq<Event>): (r: Session)
    ensures r.loading <==> s.loading && forall i :: 0 <= i < |events| ==> events[i].Typed?
    ensures (forall i :: 0 <= i < |events| ==> events[i].Typed?) ==> r.data == s.data
    ensures (forall i :: 0 <= i < |events| ==> events[i].Settled?) ==> r.search == s.search
    decreases |events|
  {
    if events == [] then s
    else
      var init := events[..|events| - 1];
      assert forall i :: 0 <= i < |init| ==> init[i] == events[i];
      Step(Run(s, init), events[|events| - 1])
  }

  /** The fetch is issued once, so at most one event settles it. */
  predicate SettlesAtMostOnce(events: seq<Event>) {
    forall i, j :: 0 <= i < |events| && 0 <= j < |events| && events[i].Settled? && events[j].Settled? ==> i == j
  }

  /**
    The state after mounting and a history of events, described without
    replaying it: the page is loading until the fetch settles; the dataset
    is empty until then and afterwards holds what a successful fetch
    returned (still empty on failure); the query is the last typed text.
   */
  lemma {:induction false} Replay(events: seq<Event>)
    requires SettlesAtMostOnce(events)
    ensures Run(Mounted, events).loading <==> forall i :: 0 <= i < |events| ==> events[i].Typed?
    ensures (forall i :: 0 <= i < |events| ==> events[i].Typed?) ==> Run(Mounted, events).data == []
    ensures forall i :: 0 <= i < |events| && events[i].Settled? ==>
      Run(Mounted, events).data == (if events[i].outcome.Succeeded? then events[i].outcome.customers else [])
    ensures (forall i :: 0 <= i < |events| ==> events[i].Settled?) ==> Run(Mounted, events).search == ""
    ensures forall j :: 0 <= j < |events| && events[j].Typed? && (forall k :: j < k < |events| ==> events[k].Settled?) ==>
      Run(Mounted, events).search == events[j].text
    decreases |events|
  {
    if events != [] {
      var n := |events| - 1;
      var init := events[..n];
      assert SettlesAtMostOnce(init);
      Replay(init);
      assert forall i :: 0 <= i < n ==> init[i] == events[i];
      if events[n].Settled? {
        assert forall i :: 0 <= i < n ==> init[i].Typed?;
      }
    }
  }

  /**
    A failed load never puts a result row on screen: once it has settled,
    every query shows either the prompt or "No customers found".
   */
  lemma FailedLoadShowsNoRows(events: seq<Event>, i: nat)
    requires SettlesAtMostOnce(events)
    requires i < |events| && events[i] == Settled(Failed)
    ensures var s := Run(Mounted, events);
      StateOf(s.loading, s.search, s.data) in {Prompt, NoResults(s.search)}
  {
    Replay(events);
    var s := Run(Mounted, events);
    assert s.data == [] && !s.loading;
    assert Filter([], s.search) == [];
  }
}

=== FILE: text.dfy ===
/**
  Strings as the search sees them: lower-casing, substring search and the
  decimal rendering of integer ids. JavaScript's `toLowerCase`, `includes`
  and `String(number)` are modelled here on `seq<char>`.
 */
module Text {

  /** An ASCII upper-case letter. */
  predicate IsUpper(c: char) {
    'A' <= c <= 'Z'
  }

  function LowerChar(c: char): (d: char)
    ensures !IsUpper(d)
    ensures IsUpper(c) ==> d as int == c as int + 32
    ensures !IsUpper(c) ==> d == c
  {
    if IsUpper(c) then (c as int + 32) as char else c
  }

  /** True when `s` holds no upper-case letter, i.e. lower-casing leaves it alone. */
  predicate IsLowered(s: string) {
    forall i :: 0 <= i < |s| ==> !IsUpper(s[i])
  }

  /** `s.toLowerCase()`, restricted to the ASCII letters. */
  function Lower(s: string): (r: string)
    ensures |r| == |s|
    ensures IsLowered(r)
    ensures forall i :: 0 <= i < |s| && !IsUpper(s[i]) ==> r[i] == s[i]
    ensures forall i :: 0 <= i < |s| && IsUpper(s[i]) ==> r[i] as int == s[i] as int + 32
  {
    seq(|s|, i requires 0 <= i < |s| => LowerChar(s[i]))
  }

  /** Lower-casing a string that has no upper-case letter changes nothing. */
  lemma LowerOfLowered(s: string)
    requires IsLowered(s)
    ensures Lower(s) == s
  {
  }

  /** Lower-casing twice is lower-casing once. */
  lemma LowerIdempotent(s: string)
    ensures Lower(Lower(s)) == Lower(s)
  {
  }

  /** Lower-casing commutes with taking a slice. */
  lemma LowerSlice(s: string, i: int, j: int)
    requires 0 <= i <= j <= |s|
    ensures Lower(s[i..j]) == Lower(s)[i..j]
  {
  }

  /** `q` sits in `s` starting at index `i`. */
  predicate OccursAt(s: string, q: string, i: int) {
    0 <= i && i + |q| <= |s| && s[i..i + |q|] == q
  }

  /**
    `s.includes(q)`: scans the start positions of `s` from left to right.
    The result is the existence of some position at which `q` occurs.
   */
  function Contains(s: string, q: string): (r: bool)
    ensures r <==> exists i :: OccursAt(s, q, i)
    decreases |s|
  {
    if |q| <= |s| && s[..|q|] == q then
      assert OccursAt(s, q, 0);
      true
    else if |s| == 0 then
      assert forall i :: !OccursAt(s, q, i);
      false
    else
      var rest := Contains(s[1..], q);
      assert forall i :: OccursAt(s[1..], q, i) <==> OccursAt(s, q, i + 1) by {
        forall i
          ensures OccursAt(s[1..], q, i) <==> OccursAt(s, q, i + 1)
        {
          if 0 <= i && i + |q| <= |s| - 1 {
            assert s[1..][i..i + |q|] == s[i + 1..i + 1 + |q|];
          }
        }
      }
      assert !OccursAt(s, q, 0);
      assert (exists i :: OccursAt(s, q, i)) ==> exists i :: OccursAt(s[1..], q, i) by {
        if exists i :: OccursAt(s, q, i) {
          var i :| OccursAt(s, q, i);
          assert OccursAt(s[1..], q, i - 1);
        }
      }
      rest
  }

  /** Containment is transitive: an occurrence of an occurrence is an occurrence. */
  lemma ContainsTransitive(s: string, t: string, u: string)
    requires Contains(s, t) && Contains(t, u)
    ensures Contains(s, u)
  {
  }

  /** A string contains each of its prefixes. */
  lemma ContainsPrefix(s: string, k: nat)
    requires k <= |s|
    ensures Contains(s, s[..k])
  {
  }

  /** A longer query can only be found where a query it contains is found. */
  lemma ContainsNarrowing(s: string, q: string, q': string)
    requires Contains(q', q)
    ensures Contains(s, q') ==> Contains(s, q)
  {
    if Contains(s, q') {
      ContainsTransitive(s, q', q);
    }
  }

  // ----- decimal rendering of integers, as `String(n)` for integral n -----

  const Digits: string := "0123456789"

  function DigitChar(d: nat): (c: char)
    requires d < 10
    ensures '0' <= c <= '9'
    ensures c as int - '0' as int == d
  {
    Digits[d]
  }

  /** Decimal digits of `n`, most significant first, no leading zeros. */
  function NatText(n: nat): (r: string)
    ensures |r| > 0
    ensures forall i :: 0 <= i < |r| ==> '0' <= r[i] <= '9'
    ensures |r| > 1 ==> r[0] != '0'
    decreases n
  {
    if n < 10 then [DigitChar(n)] else NatText(n / 10) + [DigitChar(n % 10)]
  }

  /** `String(n)` for an integer-valued number: an optional minus sign and the digits. */
  function IntText(n: int): (r: string)
    ensures |r| > 0
    ensures IsLowered(r)
    ensures n < 0 <==> r[0] == '-'
    ensures DecimalValue(if n < 0 then r[1..] else r) == if n < 0 then -n else n
  {
    NatTextRoundTrip(if n < 0 then -n else n);
    if n < 0 then "-" + NatText(-n) else NatText(n)
  }

  /** The value of a string of decimal digits, read most significant first. */
  function DecimalValue(s: string): int
    decreases |s|
  {
    if s == [] then 0
    else 10 * DecimalValue(s[..|s| - 1]) + (s[|s| - 1] as int - '0' as int)
  }

  /** Reading back the digits of `n` gives `n`. */
  lemma {:induction false} NatTextRoundTrip(n: nat)
    ensures DecimalValue(NatText(n)) == n
    decreases n
  {
    var r := NatText(n);
    if n < 10 {
      assert r[..|r| - 1] == [];
    } else {
      NatTextRoundTrip(n / 10);
      assert r[..|r| - 1] == NatText(n / 10);
    }
  }
}

=== FILE: view.dfy ===
/**
  What the page shows for a given loading flag, query and dataset: the
  "Found N results" line, the loading message, the table capped at 50 rows,
  the "No customers found" message and the search prompt.
 */
module View {
  import opened Text
  import opened Customers
  import opened Search

  /** The table never shows more rows than this. */
  const MaxRows: nat := 50

  function Min(a: int, b: int): int {
    if a <= b then a else b
  }

  /**
    Where `Array.prototype.slice` starts or stops for an index argument:
    a negative index counts from the end, and the result is clamped to
    the array's bounds.
   */
  function SliceBound(k: int, len: nat): (r: nat)
    ensures r <= len
    ensures 0 <= k ==> r == Min(k, len)
  {
    if k < 0 then (if len + k < 0 then 0 else len + k)
    else if k > len then len
    else k
  }

  /** `s.slice(start, end)`: the elements between the two clamped bounds, or none. */
  function Slice<T>(s: seq<T>, start: int, end: int): (r: seq<T>)
    ensures |r| <= |s|
    ensures SliceBound(start, |s|) <= SliceBound(end, |s|) ==>
      |r| == SliceBound(end, |s|) - SliceBound(start, |s|)
    ensures SliceBound(end, |s|) <= SliceBound(start, |s|) ==> r == []
    ensures forall i :: 0 <= i < |r| ==> r[i] == s[SliceBound(start, |s|) + i]
  {
    var from := SliceBound(start, |s|);
    var to := SliceBound(end, |s|);
    if to <= from then [] else s[from..to]
  }

  /**
    `filteredData.slice(0, 50)`: the rows the table shows. They are the
    first `min(|filtered|, 50)` results, in result order.
   */
  function Displayed(filtered: seq<Customer>): (r: seq<Customer>)
    ensures |r| == Min(|filtered|, MaxRows)
    ensures forall i :: 0 <= i < |r| ==> r[i] == filtered[i]
    ensures |filtered| <= MaxRows ==> r == filtered
  {
    Slice(filtered, 0, MaxRows)
  }

  datatype Option<T> = None | Some(value: T)

  /**
    The observable parts of the page once rendered. `rows` is `None` when
    the table is not rendered at all.
   */
  datatype Page = Page(
    foundCount: Option<nat>,
    loadingMessage: bool,
    rows: Option<seq<Customer>>,
    noMatchFor: Option<string>,
    prompt: bool)

  /**
    The page as the markup builds it, each part under its own condition:
    the count line when loaded with a non-empty query, the loading message
    instead of the table while loading, the capped table otherwise, and
    below it the no-results message or the prompt.
   */
  function Render(loading: bool, search: string, data: seq<Customer>): (p: Page)
    ensures loading ==> p == Page(None, true, None, None, false)
    ensures !loading ==> !p.loadingMessage && p.rows.Some?
    ensures p.prompt <==> !loading && search == ""
    ensures p.prompt ==> p.rows == Some([]) && p.foundCount == None && p.noMatchFor == None
    ensures p.foundCount.Some? <==> !loading && search != ""
    ensures p.foundCount.Some? ==> p.foundCount.value == |Filter(data, search)|
    ensures p.rows.Some? ==> |p.rows.value| == Min(|Filter(data, search)|, MaxRows)
    ensures p.rows.Some? ==> p.rows.value == Displayed(Filter(data, search))
    ensures p.rows.Some? ==> forall c :: c in p.rows.value ==> c in data && Matches(c, search)
    ensures p.noMatchFor.Some? <==> p.foundCount == Some(0)
    ensures p.noMatchFor.Some? ==> p.noMatchFor.value == search
  {
    var filtered := Filter(data, search);
    FilterEmptyQuery(data);
    Page(
      foundCount := if !loading && search != "" then Some(|filtered|) else None,
      loadingMessage := loading,
      rows := if loading then None else Some(Displayed(filtered)),
      noMatchFor := if !loading && search != "" && |filtered| == 0 then Some(search) else None,
      prompt := !loading && search == "")
  }

  /** The three observable states of the search view, with the results state split by emptiness. */
  datatype ViewState =
    | Loading
    | Prompt
    | NoResults(query: string)
    | Results(count: nat, rows: seq<Customer>)

  /** Which state the view is in, and for results the untruncated count and the shown rows. */
  function StateOf(loading: bool, search: string, data: seq<Customer>): (v: ViewState)
    ensures v.Loading? <==> loading
    ensures v.Prompt? <==> !loading && search == ""
    ensures v.NoResults? ==> v.query == search && forall c :: c in data ==> !Matches(c, search)
    ensures v.Results? ==> v.count > 0 && |v.rows| == Min(v.count, MaxRows)
    ensures v.Results? ==> v.count == |Filter(data, search)|
    ensures v.Results? ==> v.rows == Displayed(Filter(data, search))
  {
    if loading then Loading
    else if search == "" then Prompt
    else
      var filtered := Filter(data, search);
      if |filtered| == 0 then NoResults(search)
      else Results(|filtered|, Displayed(filtered))
  }

  /** How each state is drawn. */
  function PageOf(v: ViewState): (p: Page)
    ensures p.loadingMessage <==> v.Loading?
    ensures p.rows.None? <==> v.Loading?
    ensures p.prompt <==> v.Prompt?
    ensures p.noMatchFor.Some? <==> v.NoResults?
    ensures p.foundCount.Some? <==> v.NoResults? || v.Results?
    ensures v.Results? ==> p.foundCount == Some(v.count) && p.rows == Some(v.rows)
  {
    match v
    case Loading => Page(None, true, None, None, false)
    case Prompt => Page(None, false, Some([]), None, true)
    case NoResults(q) => Page(Some(0), false, Some([]), Some(q), false)
    case Results(n, rows) => Page(Some(n), false, Some(rows), None, false)
  }

  /**
    The markup never shows a mixture of states: what it renders is always
    exactly the drawing of the state the view is in.
   */
  lemma RenderFollowsState(loading: bool, search: string, data: seq<Customer>)
    ensures Render(loading, search, data) == PageOf(StateOf(loading, search, data))
  {
  }

  /** With a non-empty query that no record matches, the view reports zero results and says so. */
  lemma NoMatchShowsMessage(data: seq<Customer>, search: string)
    requires search != ""
    requires forall c :: c in data ==> !Matches(c, search)
    ensures StateOf(false, search, data) == NoResults(search)
    ensures Render(false, search, data) == Page(Some(0), false, Some([]), Some(search), false)
  {
    if |Filter(data, search)| > 0 {
      assert Filter(data, search)[0] in Filter(data, search);
    }
    RenderFollowsState(false, search, data);
  }

  /**
    When every record matches, the count line reports the whole dataset
    while the table stops at 50 rows.
   */
  lemma AllMatchCountVersusRows(data: seq<Customer>, search: string)
    requires search != ""
    requires forall c :: c in data ==> Matches(c, search)
    ensures Render(false, search, data).foundCount == Some(|data|)
    ensures Render(false, search, data).rows == Some(data[..Min(|data|, MaxRows)])
  {
    FilterAllMatch(data, search);
    var rows := Render(false, search, data).rows.value;
    assert rows == data[..|rows|];
  }
}
